=== FILE: README.md ===
# node-tokenthrottle: token bucket and throttle, modelled in Dafny

This project models the admission logic of `tokenthrottle`, a per-key rate
limiter built on the token-bucket algorithm.

- `token_bucket.dfy`, module `TokenBucket` (from `token_bucket.js`). A bucket
  holds `capacity`, `tokens`, `fillRate`, `window` and `time`. The constructor
  starts a bucket full when no token count is given. It stamps the bucket with
  the current time when the time stamp is missing or zero. `Fill` refills lazily
  from elapsed time. It guards against the clock moving backwards by taking a
  full window to have passed. It clamps at capacity and stamps the bucket with
  the current time. `Consume` is all-or-nothing.
- `throttle.dfy`, module `Throttling` (from `index.js`). `New` is the
  `Throttle` constructor: it checks the rate, applies the burst and window
  defaults, and sorts the token table into sync or async by the arities of its
  functions (`Classify`). `RateLimit` is `rateLimit`. It covers the missing-key
  short-circuit, override resolution (`Resolve`), the "unlimited" bypass,
  loading or creating the bucket (`Load`), consuming one token, always writing
  the bucket back, and mapping errors.
- `runs.dfy`, module `ThrottleRuns`. It defines successive calls on one key
  (`Run`) and states the scenarios of `test/index.js` over them.
- `wrappers.dfy`, module `Wrappers`. It holds `Option` and `Result`.

Modelling choices:

- `Date.now()` becomes a `now: real` parameter. One `rateLimit` call uses one
  instant, both for rebuilding the bucket and for refilling it.
- The token table is a `map<string, Bucket>` with no eviction. The outcomes of
  the table's `get` and `put` are parameters (`Io`: `Done` or `Failed`).
- With a synchronous table, the throttle wraps `get` and `put` so that their
  callbacks always report success. The model therefore ignores the outcome
  parameters for a `Sync` table (`Seen`).
- When `put` fails, the model leaves the table unchanged.
- JavaScript numbers are ideal reals. A field that is `undefined`, or that
  coerces to NaN where the code tests for NaN, is `None`.
- `rateLimit`'s callback forms become a `Reply`: `cb()` is `Unthrottled`,
  `cb(err)` is `LookupFailed`, and `cb(err, limited)` is `Decided`.

Two behaviours of the code are worth stating plainly:

- An override applies when it defines ANY of burst, rate or window. It then
  replaces all three limits, even with `undefined` (index.js:68-77). As a
  result, an override that sets only a window leaves the key unlimited
  (`Throttling.UnlimitedOverride`). This contradicts the code's own option
  documentation (index.js:18-20), which says an override does not inherit
  and that defaults apply. Under the code, `{rate: 5}` does not get burst 5
  and window 1000; its key is not throttled at all.
- When `consume` refuses, the bucket is not left untouched. It keeps its
  refilled token count and its new time stamp, and both are written back
  (token_bucket.js:45-52, 78).

## Model

| member | source | states |
|---|---|---|
| TokenBucket.New | token_bucket.js:24-34 | The constructor copies capacity, fill rate and window. A missing token count makes the bucket full. A given count is kept. A missing or zero time stamp becomes `now`; any other is kept. |
| TokenBucket.RebuildKeepsState | token_bucket.js:26-33 | A bucket rebuilt from its own fields, or from their JSON form, has the same tokens. It is the same bucket unless its time stamp is zero, in which case only the time changes, to `now`. |
| TokenBucket.RebuiltConsumesAlike | token_bucket.js:26-52 | A bucket rebuilt from its snapshot, when its time stamp is non-zero, answers every `consume` exactly as the original does. A zero time stamp is replaced by `now` on rebuilding, so the two may then differ. |
| TokenBucket.Fill | token_bucket.js:66-80 | After a refill the time stamp is `now`, and capacity, fill rate and window are unchanged. A bucket at or over capacity keeps its tokens. Otherwise tokens end at most at capacity. If the clock went backwards, exactly `fillRate` is added (clamped), as if one window had passed. No time elapsed means no change. |
| TokenBucket.FillBounded | token_bucket.js:73-76 | With `0 <= tokens <= capacity`, `fillRate >= 0` and `window > 0`, a refill never lowers tokens and never raises them above capacity. A full bucket changes only its time stamp. |
| TokenBucket.FillIdempotent | token_bucket.js:66-80 | Refilling twice at the same instant equals refilling once. |
| TokenBucket.ForwardRefill | token_bucket.js:73-76 | When the clock has not gone backwards and the bucket is below capacity, the refilled count is `min(capacity, tokens + fillRate / window * (now - time))`. |
| TokenBucket.FillComposes | token_bucket.js:66-80 | Refill is lazy without loss: refilling at `t1` and again at a later `t2` leaves the bucket exactly as one refill at `t2` would. This pins down the forward refill `min(capacity, tokens + fillRate / window * elapsed)` up to the slope. |
| TokenBucket.FillOneWindow | token_bucket.js:73-76 | One window after the last refill, a bucket below capacity has gained exactly `fillRate` tokens, clamped at capacity. |
| TokenBucket.FillAfterOneTokenPeriod | token_bucket.js:73-76 | After at least `window / fillRate` ms, at least one more token is available, up to capacity. |
| TokenBucket.Consume | token_bucket.js:45-52 | All-or-nothing. The request is admitted exactly when `n` is at most the refilled count; then `n` is deducted. Otherwise the refilled bucket is kept with nothing deducted. |
| TokenBucket.ConsumePreservesValid | token_bucket.js:45-52 | For `n >= 0`, consuming keeps `0 <= tokens <= capacity` and stamps the bucket with `now`. |
| TokenBucket.ConsumeOneFromFull | token_bucket.js:45-52 | Consuming one token from a full bucket at the instant it was touched leaves `capacity - 1`. |
| TokenBucket.ConsumeEach | token_bucket.js:45-52 | Consuming one token at each instant in turn, each call continuing from the bucket the previous one left, gives one admission per request. `NoRefillAdmitsExactlyTokens` is stated over this run. |
| TokenBucket.NoRefillAdmitsExactlyTokens | token_bucket.js:45-80 | With fill rate 0, a bucket of `k` whole tokens admits exactly the first `k` of any run of single-token requests, at any times. |
| TokenBucket.NoRefillCapacityRun | test/index.js:34-36 | A new bucket of whole capacity `C` with fill rate 0 admits `C` requests and refuses the next. |
| Throttling.Classify | index.js:34-51 | A table with `put(key, value)` and `get(key)` is synchronous. A table whose `put` has arity 3, or whose `get` has arity 2, is asynchronous. Construction fails with a type error when `put` is missing, or when `get` is missing and `put` does not have arity 3. Any other table is rejected as unclassifiable. |
| Throttling.New | index.js:22-52 | Construction fails without options, or when `rate` is not a number, or when the table cannot be classified. Otherwise burst is the given burst, or `rate` when the burst is undefined or 0. Window is the given window, or 1000 when it is undefined or 0. The table kind is the classification; the built-in table is synchronous. |
| Throttling.Resolve | index.js:63-77 | With an override for the key that defines any field, the resolved rate, burst and window are the override's own, undefined ones included. Otherwise they are the throttle's global values. |
| Throttling.Seen | index.js:36-47 | A synchronous table is wrapped so that its callbacks always report success, whatever the table call did. An asynchronous table's outcome is passed through. |
| Throttling.OverrideIgnoresGlobals | index.js:68-77 | Once an override defines any field, the resolved limits are the override's alone. A window it leaves undefined stays undefined, and an undefined rate turns limiting off. |
| Throttling.Load | index.js:85-96 | A stored bucket is rebuilt from its own fields. A missing one is created full, with capacity = burst, fill rate = rate, window = the resolved window, and time = `now`. |
| Throttling.StoredBucketIgnoresLimits | index.js:85-88 | Once a key has a bucket (with a non-zero time stamp), the limits in force do not affect which bucket is used. |
| Throttling.RateLimit | index.js:59-113 | The reply is `Unthrottled` exactly when the key is missing or the resolved rate or burst is 0/undefined; the table is then untouched. It is `LookupFailed` exactly when the lookup fails, and then nothing is written. Otherwise `limited` is the refusal of one token from the loaded bucket. The bucket is written back whether admitted or not. A failed write sets the error but does not change `limited`. |
| Throttling.RateLimitFrame | index.js:81-111 | A call changes at most its own key's entry in the table. |
| Throttling.RateLimitKeepsValid | index.js:79-111 | Every stored bucket still satisfies `0 <= tokens <= capacity` after the call. This holds for unlimited keys and stored keys whatever their limits. It needs positive limits only when the call creates a new bucket. |
| Throttling.RateLimitKeepsNumeric | index.js:85-111 | Every stored bucket still has a non-zero window after the call. |
| Throttling.DistinctKeysIndependent | index.js:81-111 | A call for one key does not change the reply to a later call for another key, at any instant and with any table outcomes. |
| Throttling.UnlimitedOverride | index.js:68-79 | An override that defines a field but has rate or burst 0/undefined makes its key unthrottled, with the table untouched. Examples: `{rate: 0}`, `{rate: 0, burst: 0}`, a window-only override. |
| Throttling.SyncTableNeverFails | index.js:36-47 | A synchronous table never yields a lookup error or a save error. |
| ThrottleRuns.Run | index.js:59-113 | Successive calls give one reply per call and keep every stored window non-zero. A usable resolved window is needed only for a key whose limits throttle and that has no stored bucket yet. |
| ThrottleRuns.SameInstantDrainsStored | index.js:85-111 | Calls at the instant a bucket of `k` whole tokens was last touched: exactly the first `k` are admitted, and every call is decided without error. |
| ThrottleRuns.WindowlessOverrideDrainsStored | index.js:85-94 | Under the override `{rate: 1, burst: 3}`, which limits but defines no window, a bucket already stored for the key is drained normally: of calls at its own instant, exactly the first `k` are admitted. The resolved window is read only when a bucket is created. |
| ThrottleRuns.BurstThenLimited | index.js:81-111 | With global limits, burst `C`, and all calls on a new key at one instant, `C` calls are admitted and the next is limited. |
| ThrottleRuns.UnlimitedKeyRun | test/index.js:75-129 | A key whose limits do not throttle is never throttled over any number of calls, and the table is never touched. |
| ThrottleRuns.NewGivesUsableWindow | index.js:27-29 | A throttle the constructor accepts gives every key without an override a usable window: the given window when it is truthy, else the 1000 ms default. With that, `Run` can be used on any such key. |
| ThrottleRuns.ZeroRateOverrideRuns | test/index.js:75-129 | The overrides `{rate: 0, burst: 0}` and `{rate: 0}` leave their key unthrottled over any number of calls, and the table is never touched. Neither override defines a window. |
| ThrottleRuns.ConstructorCases | test/index.js:193-232 | No options, a missing rate, a non-numeric rate, a `put(key)`/`get()` table, and a table without `put` (whose arity read throws at index.js:36) are refused. A `put(key, bucket)`/`get(key)` table is synchronous. `{rate: r}` gives burst `r`, window 1000 and a synchronous table. |
| ThrottleRuns.RateThreeScenario | test/index.js:47-73 | Rate 3, calls at 10, 20, 30, 50 and 400 ms: admitted, admitted, admitted, limited, admitted. |
| ThrottleRuns.OverrideWindowScenario | test/index.js:131-163 | With an override of rate 1, burst 3, window 100, calls at 10, 20, 30, 50 and 150 ms: admitted three times, limited, admitted. |
| ThrottleRuns.TwoInstancesScenario | test/index.js:257-293 | Throttles of rate 1 and rate 3, each with its own table: the first is limited on its second call, and the second admits three calls before it is limited. |

## Left out

- The built-in LRU token table (token_table.js) and its eviction. The table is a map that never evicts, and `maxKeys` is not modelled.
- `process.nextTick` deferral and callback scheduling (index.js:38-47). A call's get, consume and put form one step, so the race between concurrent calls on one key is not modelled.
- `Date.now()`. It is the `now` parameter.
- IEEE-754 behaviour: NaN, infinities and rounding. Arithmetic is over ideal reals.
- Coercion of numeric strings by unary `+` (token_bucket.js:26-33). The bucket's options are already numbers.
- TokenBucket.Fill: requires a non-zero window, because a zero window divides by zero and yields an infinity or NaN.
- TokenBucket.Consume: requires a non-zero window, for the same reason as `Fill`.
- Throttling.RateLimit: requires `NumericCase`: the bucket a limiting call would use has a defined, non-zero window. An override that defines rate and burst but not window gives new buckets a NaN window (index.js:76 into token_bucket.js:32, 74), and this is not modelled.
- Throttling.Load: requires a defined window when it creates a bucket, for the same reason as `RateLimit`.
- Throttling.RateLimit: a table accepted because `put` has arity 3 but that has no `get` makes `rateLimit` throw when it calls the missing `get` (index.js:81). The model treats such a table like any asynchronous one.
- Throttling.New: `burst` and `window` options of non-numeric type are not modelled. `assert-plus` is modelled only as "rate must be a number".
- What a remote table holds after a failed `put` is unknown; the model keeps the table unchanged.
- Error message text, the "callable without `new`" convenience (index.js:23, token_bucket.js:25), and the timer-based timing of the tests.

=== FILE: runs.dfy ===
/** Successive `rateLimit` calls on one key, each at its own instant and with
    every table call succeeding, and the scenarios of test/index.js stated
    over them. */
module ThrottleRuns {
  import opened Wrappers
  import opened TokenBucket
  import opened Throttling

  /** The replies of a run, and the table it leaves. */
  datatype Trace = Trace(replies: seq<Reply>, table: Table)

  /** If the limits for `key` throttle at all, they give a usable window
      should a bucket be created; limits that do not throttle never read it. */
  predicate WindowUsable(t: Throttle, key: string)
  {
    Limiting(Resolve(t, key)) ==> Resolve(t, key).window.Some? && Resolve(t, key).window.value != 0.0
  }

  /** `rateLimit(key)` at each instant of `nows` in turn. */
  function Run(t: Throttle, table: Table, key: string, nows: seq<real>): (r: Trace)
    requires NumericTable(table) && (key in table || WindowUsable(t, key))
    ensures |r.replies| == |nows|
    ensures NumericTable(r.table)
    decreases |nows|
  {
    if nows == [] then Trace([], table)
    else
      var s := RateLimit(t, table, Some(key), nows[0], Done, Done);
      RateLimitKeepsNumeric(t, table, Some(key), nows[0], Done, Done);
      var rest := Run(t, s.table, key, nows[1..]);
      Trace([s.reply] + rest.replies, rest.table)
  }

  /** The reply to the i-th call of a burst: admitted while tokens last. */
  function BurstReply(i: nat, k: nat): Reply
  {
    Decided(i >= k, false)
  }

  /** A stored bucket holding `k` whole tokens and last touched at `now`:
      of any number of calls made at that same instant, exactly the first `k`
      are admitted, and every one is written back. */
  lemma {:induction false} SameInstantDrainsStored(t: Throttle, table: Table, key: string, now: real, k: nat, n: nat)
    requires NumericTable(table)
    requires Limiting(Resolve(t, key))
    requires key in table && table[key].tokens == k as real && table[key].time == now
    ensures var r := Run(t, table, key, seq(n, _ => now));
      forall i :: 0 <= i < n ==> r.replies[i] == BurstReply(i, k)
    decreases n
  {
    if n > 0 {
      var nows := seq(n, _ => now);
      var s := RateLimit(t, table, Some(key), now, Done, Done);
      var b := table[key];
      var loaded := Load(table, key, Resolve(t, key), now);
      RebuildKeepsState(b, now);
      assert loaded == b;
      var c := Consume(b, 1.0, now);
      assert Fill(b, now).tokens == b.tokens;
      var k' := if k == 0 then 0 else k - 1;
      assert c.bucket.tokens == k' as real && c.bucket.time == now;
      assert s == Step(BurstReply(0, k), table[key := c.bucket]);
      assert nows[1..] == seq(n - 1, _ => now);
      SameInstantDrainsStored(t, s.table, key, now, k', n - 1);
      var r := Run(t, table, key, nows);
      var rest := Run(t, s.table, key, nows[1..]);
      assert r.replies == [s.reply] + rest.replies;
      forall i | 0 <= i < n
        ensures r.replies[i] == BurstReply(i, k)
      {
        if i > 0 {
          assert r.replies[i] == rest.replies[i - 1];
        }
      }
    }
  }

  /** Under the override `{rate: 1, burst: 3}`, which limits but defines no
      window, a bucket already stored for the key is still drained normally:
      the resolved window is read only when a bucket is created. */
  lemma WindowlessOverrideDrainsStored(b: Bucket, k: nat, n: nat)
    requires b.window != 0.0 && b.tokens == k as real
    ensures var t := Throttling.New(Some(OverrideOptions(Override(Some(3.0), Some(1.0), None)))).value;
      var r := Run(t, map["test" := b], "test", seq(n, _ => b.time));
      && !WindowUsable(t, "test")
      && forall i :: 0 <= i < n ==> r.replies[i] == BurstReply(i, k)
  {
    var t := Throttling.New(Some(OverrideOptions(Override(Some(3.0), Some(1.0), None)))).value;
    assert Limiting(Resolve(t, "test"));
    SameInstantDrainsStored(t, map["test" := b], "test", b.time, k, n);
  }

  /** With the global limits in force and burst `C`, the first `C` calls on a
      new key at one instant are admitted and the next is limited. */
  lemma BurstThenLimited(t: Throttle, table: Table, key: string, now: real, capacity: nat)
    requires NumericTable(table) && key !in table && !Overridden(t, key)
    requires t.rate != 0.0 && t.window != 0.0 && t.burst == capacity as real && 1 <= capacity
    ensures Run(t, table, key, seq(capacity + 1, _ => now)).replies
         == seq(capacity, _ => Decided(false, false)) + [Decided(true, false)]
  {
    var nows := seq(capacity + 1, _ => now);
    var l := Resolve(t, key);
    var s := RateLimit(t, table, Some(key), now, Done, Done);
    var b := Load(table, key, l, now);
    var c := Consume(b, 1.0, now);
    assert c.admitted && c.bucket.tokens == (capacity - 1) as real && c.bucket.time == now;
    assert s == Step(Decided(false, false), table[key := c.bucket]);
    assert nows[1..] == seq(capacity, _ => now);
    SameInstantDrainsStored(t, s.table, key, now, capacity - 1, capacity);
    var r := Run(t, table, key, nows);
    var rest := Run(t, s.table, key, nows[1..]);
    assert r.replies == [s.reply] + rest.replies;
    forall i | 0 <= i < capacity + 1
      ensures r.replies[i] == (seq(capacity, _ => Decided(false, false)) + [Decided(true, false)])[i]
    {
      if i > 0 {
        assert r.replies[i] == rest.replies[i - 1];
      }
    }
  }

  /** A key whose override leaves it unlimited is never throttled and never
      reaches the table, however many calls are made. */
  lemma {:induction false} UnlimitedKeyRun(t: Throttle, table: Table, key: string, nows: seq<real>)
    requires NumericTable(table) && WindowUsable(t, key)
    requires !Limiting(Resolve(t, key))
    ensures Run(t, table, key, nows) == Trace(seq(|nows|, _ => Unthrottled), table)
    decreases |nows|
  {
    if nows != [] {
      UnlimitedKeyRun(t, table, key, nows[1..]);
      assert [Unthrottled] + seq(|nows| - 1, _ => Unthrottled) == seq(|nows|, _ => Unthrottled);
    }
  }

  /** The options of `Throttle({rate: 3, burst: 3, overrides: {test: o}})`. */
  function OverrideOptions(o: Override): Throttling.Options
  {
    Throttling.Options(Number(3.0), Some(3.0), None, map["test" := o], None)
  }

  /** The overrides `{rate: 0, burst: 0}` and `{rate: 0}` both leave their key
      unthrottled over any number of calls at any instants, and the table is
      never touched, although neither defines a window. */
  lemma ZeroRateOverrideRuns(table: Table, nows: seq<real>)
    requires NumericTable(table)
    ensures var t := Throttling.New(Some(OverrideOptions(Override(Some(0.0), Some(0.0), None)))).value;
      WindowUsable(t, "test") && Run(t, table, "test", nows) == Trace(seq(|nows|, _ => Unthrottled), table)
    ensures var t := Throttling.New(Some(OverrideOptions(Override(None, Some(0.0), None)))).value;
      WindowUsable(t, "test") && Run(t, table, "test", nows) == Trace(seq(|nows|, _ => Unthrottled), table)
  {
    var t1 := Throttling.New(Some(OverrideOptions(Override(Some(0.0), Some(0.0), None)))).value;
    assert !Limiting(Resolve(t1, "test"));
    UnlimitedKeyRun(t1, table, "test", nows);
    var t2 := Throttling.New(Some(OverrideOptions(Override(None, Some(0.0), None)))).value;
    assert !Limiting(Resolve(t2, "test"));
    UnlimitedKeyRun(t2, table, "test", nows);
  }

  /** A throttle the constructor accepts gives every key without an override
      a usable window: the given window when it is truthy, else 1000 ms. */
  lemma NewGivesUsableWindow(o: Throttling.Options, key: string)
    requires Throttling.New(Some(o)).Success?
    ensures var t := Throttling.New(Some(o)).value;
      !Overridden(t, key) ==>
        && WindowUsable(t, key)
        && Resolve(t, key).window == Some(if Truthy(o.window) then o.window.value else DefaultWindow)
  {
  }

  /** The options of `Throttle({rate: r})`. */
  function RateOnly(rate: real): Throttling.Options
  {
    Throttling.Options(Number(rate), None, None, map[], None)
  }

  /** Construction: a missing options object, a missing or non-numeric rate,
      and a table with `put(key)` and `get()` are all refused; a lone rate
      takes itself as burst and the default window. */
  lemma ConstructorCases(rate: real)
    ensures Throttling.New(None) == Failure(NoOptions)
    ensures Throttling.New(Some(Throttling.Options(Missing, Some(1.0), None, map[], None))) == Failure(RateNotNumber)
    ensures Throttling.New(Some(Throttling.Options(NotNumber, None, None, map[], None))) == Failure(RateNotNumber)
    ensures Throttling.New(Some(Throttling.Options(Number(1.0), Some(3.0), Some(100.0), map[], Some(TableShape(Some(1), Some(0))))))
         == Failure(UnknownTableKind)
    ensures Throttling.New(Some(Throttling.Options(Number(1.0), None, None, map[], Some(TableShape(None, Some(1))))))
         == Failure(TableMethodMissing)
    ensures Throttling.New(Some(Throttling.Options(Number(1.0), Some(3.0), Some(100.0), map[], Some(TableShape(Some(2), Some(1))))))
         == Success(Throttle(1.0, 3.0, 100.0, map[], Sync))
    ensures Throttling.New(Some(RateOnly(rate))) == Success(Throttle(rate, rate, DefaultWindow, map[], Sync))
  {
  }

  /** Three calls at 10, 20 and 30 ms on a rate-3 throttle are admitted, a
      fourth at 50 ms is limited, and a fifth at 400 ms is admitted again
      after about 1.2 tokens have refilled. */
  lemma RateThreeScenario(start: real)
    requires 0.0 <= start
    ensures var t := Throttling.New(Some(RateOnly(3.0))).value;
      Run(t, map[], "test", [start + 10.0, start + 20.0, start + 30.0, start + 50.0, start + 400.0]).replies
      == [Decided(false, false), Decided(false, false), Decided(false, false), Decided(true, false), Decided(false, false)]
  {
    var t := Throttling.New(Some(RateOnly(3.0))).value;
    assert t == Throttle(3.0, 3.0, DefaultWindow, map[], Sync);
    var nows := [start + 10.0, start + 20.0, start + 30.0, start + 50.0, start + 400.0];
    var s1 := RateLimit(t, map[], Some("test"), nows[0], Done, Done);
    assert s1.reply == Decided(false, false) && s1.table["test"].tokens == 2.0;
    var s2 := RateLimit(t, s1.table, Some("test"), nows[1], Done, Done);
    assert s2.reply == Decided(false, false) && s2.table["test"].tokens == 1.03;
    var s3 := RateLimit(t, s2.table, Some("test"), nows[2], Done, Done);
    assert s3.reply == Decided(false, false) && s3.table["test"].tokens == 0.06;
    var s4 := RateLimit(t, s3.table, Some("test"), nows[3], Done, Done);
    assert s4.reply == Decided(true, false) && s4.table["test"].tokens == 0.12;
    var s5 := RateLimit(t, s4.table, Some("test"), nows[4], Done, Done);
    assert s5.reply == Decided(false, false);
    assert Run(t, s4.table, "test", nows[4..]).replies == [s5.reply];
    assert Run(t, s3.table, "test", nows[3..]).replies == [s4.reply, s5.reply];
    assert Run(t, s2.table, "test", nows[2..]).replies == [s3.reply, s4.reply, s5.reply];
    assert Run(t, s1.table, "test", nows[1..]).replies == [s2.reply, s3.reply, s4.reply, s5.reply];
  }

  /** The options of `Throttle({rate: 1, burst: 3, overrides: {test: {rate: 1, burst: 3, window: 100}}})`. */
  function OverrideWindowOptions(): Throttling.Options
  {
    Throttling.Options(Number(1.0), Some(3.0), None, map["test" := Override(Some(3.0), Some(1.0), Some(100.0))], None)
  }

  /** With an override of window 100 ms, three calls at 10, 20 and 30 ms are
      absorbed by the burst of 3, a fourth at 50 ms is limited, and a fifth at
      150 ms is admitted after a full window's refill. */
  lemma OverrideWindowScenario(start: real)
    requires 0.0 <= start
    ensures var t := Throttling.New(Some(OverrideWindowOptions())).value;
      Run(t, map[], "test", [start + 10.0, start + 20.0, start + 30.0, start + 50.0, start + 150.0]).replies
      == [Decided(false, false), Decided(false, false), Decided(false, false), Decided(true, false), Decided(false, false)]
  {
    var t := Throttling.New(Some(OverrideWindowOptions())).value;
    assert t == Throttle(1.0, 3.0, DefaultWindow, OverrideWindowOptions().overrides, Sync);
    assert Resolve(t, "test") == Limits(Some(1.0), Some(3.0), Some(100.0));
    var nows := [start + 10.0, start + 20.0, start + 30.0, start + 50.0, start + 150.0];
    var s1 := RateLimit(t, map[], Some("test"), nows[0], Done, Done);
    assert s1.reply == Decided(false, false) && s1.table["test"].tokens == 2.0;
    var s2 := RateLimit(t, s1.table, Some("test"), nows[1], Done, Done);
    assert s2.reply == Decided(false, false) && s2.table["test"].tokens == 1.1;
    var s3 := RateLimit(t, s2.table, Some("test"), nows[2], Done, Done);
    assert s3.reply == Decided(false, false) && s3.table["test"].tokens == 0.2;
    var s4 := RateLimit(t, s3.table, Some("test"), nows[3], Done, Done);
    assert s4.reply == Decided(true, false) && s4.table["test"].tokens == 0.4;
    var s5 := RateLimit(t, s4.table, Some("test"), nows[4], Done, Done);
    assert s5.reply == Decided(false, false);
    assert Run(t, s4.table, "test", nows[4..]).replies == [s5.reply];
    assert Run(t, s3.table, "test", nows[3..]).replies == [s4.reply, s5.reply];
    assert Run(t, s2.table, "test", nows[2..]).replies == [s3.reply, s4.reply, s5.reply];
    assert Run(t, s1.table, "test", nows[1..]).replies == [s2.reply, s3.reply, s4.reply, s5.reply];
  }

  /** Two throttles with tables of their own, rates 1 and 3, on the same key:
      the rate-1 throttle is limited on its second call while the rate-3
      throttle still admits three calls before it is limited. */
  lemma TwoInstancesScenario(start: real)
    requires 0.0 <= start
    ensures var t2 := Throttling.New(Some(RateOnly(1.0))).value;
      Run(t2, map[], "test", [start, start + 10.0]).replies == [Decided(false, false), Decided(true, false)]
    ensures var t1 := Throttling.New(Some(RateOnly(3.0))).value;
      Run(t1, map[], "test", [start + 21.0, start + 22.0, start + 23.0, start + 50.0]).replies
      == [Decided(false, false), Decided(false, false), Decided(false, false), Decided(true, false)]
  {
    var t2 := Throttling.New(Some(RateOnly(1.0))).value;
    assert t2 == Throttle(1.0, 1.0, DefaultWindow, map[], Sync);
    var a := [start, start + 10.0];
    var u1 := RateLimit(t2, map[], Some("test"), a[0], Done, Done);
    assert u1.reply == Decided(false, false) && u1.table["test"].tokens == 0.0;
    var u2 := RateLimit(t2, u1.table, Some("test"), a[1], Done, Done);
    assert u2.reply == Decided(true, false);
    assert Run(t2, u1.table, "test", a[1..]).replies == [u2.reply];

    var t1 := Throttling.New(Some(RateOnly(3.0))).value;
    assert t1 == Throttle(3.0, 3.0, DefaultWindow, map[], Sync);
    var nows := [start + 21.0, start + 22.0, start + 23.0, start + 50.0];
    var s1 := RateLimit(t1, map[], Some("test"), nows[0], Done, Done);
    assert s1.reply == Decided(false, false) && s1.table["test"].tokens == 2.0;
    var s2 := RateLimit(t1, s1.table, Some("test"), nows[1], Done, Done);
    assert s2.reply == Decided(false, false) && s2.table["test"].tokens == 1.003;
    var s3 := RateLimit(t1, s2.table, Some("test"), nows[2], Done, Done);
    assert s3.reply == Decided(false, false) && s3.table["test"].tokens == 0.006;
    var s4 := RateLimit(t1, s3.table, Some("test"), nows[3], Done, Done);
    assert s4.reply == Decided(true, false);
    assert Run(t1, s3.table, "test", nows[3..]).replies == [s4.reply];
    assert Run(t1, s2.table, "test", nows[2..]).replies == [s3.reply, s4.reply];
    assert Run(t1, s1.table, "test", nows[1..]).replies == [s2.reply, s3.reply, s4.reply];
  }
}

=== FILE: throttle.dfy ===
/** The throttle of index.js: construction with defaults and table-kind
    detection, and `rateLimit`, which resolves the limits for a key, loads or
    creates that key's bucket, consumes one token and writes the bucket back.

    The token table is a map from key to bucket. The outcomes of the table's
    `get` and `put` calls are parameters (`Io`), and so is the current time;
    one `rateLimit` call is one sequential step from a table to a table. */
module Throttling {
  import opened Wrappers
  import opened TokenBucket

  /** Whether the table answers directly (and is wrapped to answer through a
      callback) or answers through a callback itself. */
  datatype TableKind = Sync | Async

  /** The arities (`length`) of the table's `put` and `get` functions;
      `None` when the table has no such function. */
  datatype TableShape = TableShape(putArity: Option<nat>, getArity: Option<nat>)

  /** The shape of the built-in LRU table: `put(key, value)` and `get(key)`. */
  const DefaultTable := TableShape(Some(2), Some(1))

  /** The default refill window in milliseconds. */
  const DefaultWindow: real := 1000.0

  /** What the `rate` option holds: nothing, a number, or a value of another
      type (a string, an object, ...). */
  datatype RateArg = Missing | Number(n: real) | NotNumber

  /** A per-key override; each field may be undefined. */
  datatype Override = Override(burst: Option<real>, rate: Option<real>, window: Option<real>)

  /** The constructor's options. An absent `overrides` object is the empty map;
      an absent `tokensTable` is `None` and means the built-in table. */
  datatype Options = Options(
    rate: RateArg, burst: Option<real>, window: Option<real>,
    overrides: map<string, Override>, table: Option<TableShape>)

  /** Why construction failed. `TableMethodMissing` is the TypeError thrown
      when the arity of a missing `put` or `get` is read. */
  datatype ConfigError = NoOptions | RateNotNumber | TableMethodMissing | UnknownTableKind

  /** A constructed throttle. */
  datatype Throttle = Throttle(rate: real, burst: real, window: real, overrides: map<string, Override>, table: TableKind)

  /** The limits in force for one key; a field is `None` when an override
      left it undefined. */
  datatype Limits = Limits(rate: Option<real>, burst: Option<real>, window: Option<real>)

  /** The outcome of one table call. */
  datatype Io = Done | Failed

  /** The reply `rateLimit` calls back with:
      - `Unthrottled`: `cb()` — no error and no decision, the request passes;
      - `LookupFailed`: `cb(err)` — the table lookup failed, no decision;
      - `Decided`: `cb(err, limited)`, where `err` is set exactly when
        writing the bucket back failed. */
  datatype Reply = Unthrottled | LookupFailed | Decided(limited: bool, saveFailed: bool)

  type Table = map<string, Bucket>

  /** One `rateLimit` step: the reply and the table afterwards. */
  datatype Step = Step(reply: Reply, table: Table)

  /** JavaScript truthiness of a possibly undefined number. */
  predicate Truthy(x: Option<real>)
  {
    x.Some? && x.value != 0.0
  }

  /** `x || fallback` for a possibly undefined number. */
  function Or(x: Option<real>, fallback: real): real
  {
    if Truthy(x) then x.value else fallback
  }

  /** Sorting a table into sync or async by the arities of its functions:
      `put(key, value)` with `get(key)` is synchronous; otherwise the table
      is accepted as asynchronous unless neither `put` has arity 3 nor `get`
      has arity 2. The arity of `put` is always read, and that of `get` is
      read unless `put` has arity 3; reading a missing one fails. */
  function Classify(shape: TableShape): (k: Result<TableKind, ConfigError>)
    ensures k == Success(Sync) <==> shape == TableShape(Some(2), Some(1))
    ensures k == Success(Async) <==>
      shape.putArity == Some(3) || (shape.putArity.Some? && shape.getArity == Some(2))
    ensures k == Failure(TableMethodMissing) <==>
      shape.putArity.None? || (shape.putArity != Some(3) && shape.getArity.None?)
    ensures k == Failure(UnknownTableKind) <==>
      && shape.putArity.Some? && shape.getArity.Some?
      && shape != TableShape(Some(2), Some(1))
      && shape.putArity.value != 3 && shape.getArity.value != 2
    ensures k.Failure? ==> k.error == TableMethodMissing || k.error == UnknownTableKind
  {
    match shape.putArity
    case None => Failure(TableMethodMissing)
    case Some(put) =>
      if put == 2 && shape.getArity == Some(1) then Success(Sync)
      else if put == 3 then Success(Async)
      else match shape.getArity
        case None => Failure(TableMethodMissing)
        case Some(get) => if get != 2 then Failure(UnknownTableKind) else Success(Async)
  }

  /** The constructor. It fails without an options object, when `rate` is not
      a number, or when the table's kind cannot be told. `burst` falls back to
      `rate` and `window` to 1000 when they are undefined or zero. */
  function New(o: Option<Options>): (r: Result<Throttle, ConfigError>)
    ensures o.None? ==> r == Failure(NoOptions)
    ensures o.Some? && !o.value.rate.Number? ==> r == Failure(RateNotNumber)
    ensures o.Some? && o.value.rate.Number? && Classify(o.value.table.GetOr(DefaultTable)).Failure? ==>
      r == Failure(Classify(o.value.table.GetOr(DefaultTable)).error)
    ensures r.Success? <==>
      o.Some? && o.value.rate.Number? && Classify(o.value.table.GetOr(DefaultTable)).Success?
    ensures r.Success? ==>
      var opts := o.value;
      && r.value.rate == opts.rate.n
      && (Truthy(opts.burst) ==> r.value.burst == opts.burst.value)
      && (!Truthy(opts.burst) ==> r.value.burst == opts.rate.n)
      && (Truthy(opts.window) ==> r.value.window == opts.window.value)
      && (!Truthy(opts.window) ==> r.value.window == DefaultWindow)
      && r.value.overrides == opts.overrides
      && Success(r.value.table) == Classify(opts.table.GetOr(DefaultTable))
  {
    if o.None? then Failure(NoOptions)
    else
      var opts := o.value;
      if !opts.rate.Number? then Failure(RateNotNumber)
      else
        match Classify(opts.table.GetOr(DefaultTable))
        case Failure(e) => Failure(e)
        case Success(kind) =>
          Success(Throttle(opts.rate.n, Or(opts.burst, opts.rate.n), Or(opts.window, DefaultWindow), opts.overrides, kind))
  }

  /** The override has at least one field defined. */
  predicate DefinesAny(o: Override)
  {
    o.burst.Some? || o.rate.Some? || o.window.Some?
  }

  /** The override that applies to `key`, if any. */
  predicate Overridden(t: Throttle, key: string)
  {
    key in t.overrides && DefinesAny(t.overrides[key])
  }

  /** The limits for `key`: an override that defines any field replaces all
      three limits, undefined ones included; otherwise the global limits. */
  function Resolve(t: Throttle, key: string): (l: Limits)
    ensures Overridden(t, key) ==>
      l.rate == t.overrides[key].rate && l.burst == t.overrides[key].burst && l.window == t.overrides[key].window
    ensures !Overridden(t, key) ==> l == Limits(Some(t.rate), Some(t.burst), Some(t.window))
  {
    if Overridden(t, key) then
      var o := t.overrides[key];
      Limits(o.rate, o.burst, o.window)
    else Limits(Some(t.rate), Some(t.burst), Some(t.window))
  }

  /** Overrides do not inherit: once an override applies, the global limits
      play no part, and a field it leaves undefined stays undefined. */
  lemma OverrideIgnoresGlobals(t: Throttle, t': Throttle, key: string)
    requires Overridden(t, key) && t'.overrides == t.overrides
    ensures Resolve(t, key) == Resolve(t', key)
    ensures t.overrides[key].window.None? ==> Resolve(t, key).window.None?
    ensures t.overrides[key].rate.None? ==> !Limiting(Resolve(t, key))
  {
  }

  /** The limits actually throttle: neither rate nor burst is undefined or zero. */
  predicate Limiting(l: Limits)
  {
    Truthy(l.rate) && Truthy(l.burst)
  }

  /** The outcome the throttle sees from a table call: a synchronous table is
      wrapped so that its callback always reports success. */
  function Seen(kind: TableKind, io: Io): (s: Io)
    ensures kind == Sync ==> s == Done
    ensures kind == Async ==> s == io
  {
    if kind == Sync then Done else io
  }

  /** The bucket a limiting call works on: the stored one rebuilt from its own
      fields, or a new full bucket sized by the resolved limits. */
  function Load(table: Table, key: string, l: Limits, now: real): (b: Bucket)
    requires Limiting(l) && (key !in table ==> l.window.Some?)
    ensures key in table ==> b == TokenBucket.New(Snapshot(table[key]), now)
    ensures key !in table ==>
      && b.capacity == l.burst.value && Full(b) && b.fillRate == l.rate.value
      && b.window == l.window.value && b.time == now
  {
    if key in table then TokenBucket.New(Snapshot(table[key]), now)
    else TokenBucket.New(TokenBucket.Options(l.burst.value, None, l.rate.value, l.window.value, None), now)
  }

  /** The numeric case this model covers: the bucket a limiting call for `key`
      would use has a defined, non-zero window. */
  predicate NumericCase(t: Throttle, table: Table, key: Option<string>)
  {
    key.Some? && Limiting(Resolve(t, key.value)) ==>
      if key.value in table then table[key.value].window != 0.0
      else Resolve(t, key.value).window.Some? && Resolve(t, key.value).window.value != 0.0
  }

  /** `rateLimit(key, cb)` as one step. */
  function RateLimit(t: Throttle, table: Table, key: Option<string>, now: real, get: Io, put: Io): (s: Step)
    requires NumericCase(t, table, key)
    // A missing key, or limits that do not throttle, pass the request and
    // leave the table alone.
    ensures s.reply == Unthrottled <==> key.None? || !Limiting(Resolve(t, key.value))
    ensures s.reply == Unthrottled ==> s.table == table
    // A failed lookup yields an error and no decision, and nothing is written.
    ensures s.reply == LookupFailed <==>
      key.Some? && Limiting(Resolve(t, key.value)) && Seen(t.table, get) == Failed
    ensures s.reply == LookupFailed ==> s.table == table
    // Otherwise the decision is the refusal of one token from the loaded
    // bucket; the bucket is written back whether or not it was admitted, and
    // a failed write is reported without changing the decision.
    ensures s.reply.Decided? ==>
      var l := Resolve(t, key.value);
      var c := Consume(Load(table, key.value, l, now), 1.0, now);
      && s.reply.limited == !c.admitted
      && (s.reply.saveFailed <==> Seen(t.table, put) == Failed)
      && (!s.reply.saveFailed ==> s.table == table[key.value := c.bucket])
      && (s.reply.saveFailed ==> s.table == table)
  {
    if key.None? then Step(Unthrottled, table)
    else
      var l := Resolve(t, key.value);
      if !Limiting(l) then Step(Unthrottled, table)
      else if Seen(t.table, get) == Failed then Step(LookupFailed, table)
      else
        var c := Consume(Load(table, key.value, l, now), 1.0, now);
        if Seen(t.table, put) == Failed then Step(Decided(!c.admitted, true), table)
        else Step(Decided(!c.admitted, false), table[key.value := c.bucket])
  }

  /** A call changes at most the entry of its own key. */
  lemma RateLimitFrame(t: Throttle, table: Table, key: Option<string>, now: real, get: Io, put: Io)
    requires NumericCase(t, table, key)
    ensures var s := RateLimit(t, table, key, now, get, put);
      && (key.None? ==> s.table == table)
      && (key.Some? ==> s.table.Keys <= table.Keys + {key.value})
      && (forall k :: k in table && Some(k) != key ==> k in s.table && s.table[k] == table[k])
  {
  }

  /** Every stored bucket has a non-zero window. */
  predicate NumericTable(table: Table)
  {
    forall k :: k in table ==> table[k].window != 0.0
  }

  /** Every stored bucket satisfies the bucket invariant. */
  predicate ValidTable(table: Table)
  {
    forall k :: k in table ==> Valid(table[k])
  }

  /** Limits under which a new bucket is valid. */
  predicate PositiveLimits(l: Limits)
  {
    l.rate.Some? && l.burst.Some? && l.window.Some? && 0.0 < l.rate.value && 0.0 < l.burst.value && 0.0 < l.window.value
  }

  /** Stored windows stay non-zero: the bucket written back keeps the window
      of the bucket that was loaded. */
  lemma RateLimitKeepsNumeric(t: Throttle, table: Table, key: Option<string>, now: real, get: Io, put: Io)
    requires NumericTable(table) && NumericCase(t, table, key)
    ensures NumericTable(RateLimit(t, table, key, now, get, put).table)
  {
    var s := RateLimit(t, table, key, now, get, put);
    if s.reply.Decided? && !s.reply.saveFailed {
      forall k | k in s.table
        ensures s.table[k].window != 0.0
      {
        if k != key.value {
          assert s.table[k] == table[k];
        }
      }
    }
  }

  /** Stored buckets stay within `0 <= tokens <= capacity`. The limits only
      matter when a call creates a bucket, and then they must be positive. */
  lemma RateLimitKeepsValid(t: Throttle, table: Table, key: Option<string>, now: real, get: Io, put: Io)
    requires ValidTable(table) && NumericCase(t, table, key)
    requires key.Some? && Limiting(Resolve(t, key.value)) && key.value !in table ==> PositiveLimits(Resolve(t, key.value))
    ensures ValidTable(RateLimit(t, table, key, now, get, put).table)
  {
    var s := RateLimit(t, table, key, now, get, put);
    if s.reply.Decided? && !s.reply.saveFailed {
      var l := Resolve(t, key.value);
      var b := Load(table, key.value, l, now);
      if key.value in table {
        RebuildKeepsState(table[key.value], now);
      }
      assert Valid(b);
      ConsumePreservesValid(b, 1.0, now);
      forall k | k in s.table
        ensures Valid(s.table[k])
      {
        if k != key.value {
          assert s.table[k] == table[k];
        }
      }
    }
  }

  /** A call for one key does not change the reply to a later call for
      another key, whenever that call is made: buckets are independent per key. */
  lemma DistinctKeysIndependent(t: Throttle, table: Table, k: string, j: string, now: real, now': real, get: Io, put: Io, get': Io, put': Io)
    requires k != j && NumericCase(t, table, Some(k)) && NumericCase(t, table, Some(j))
    ensures NumericCase(t, RateLimit(t, table, Some(k), now, get, put).table, Some(j))
    ensures RateLimit(t, RateLimit(t, table, Some(k), now, get, put).table, Some(j), now', get', put').reply
         == RateLimit(t, table, Some(j), now', get', put').reply
  {
    var s := RateLimit(t, table, Some(k), now, get, put);
    RateLimitFrame(t, table, Some(k), now, get, put);
    assert j in s.table <==> j in table;
    if j in table {
      assert s.table[j] == table[j];
    }
  }

  /** The stored bucket alone decides: the limits in force do not matter once
      a key has a bucket. */
  lemma StoredBucketIgnoresLimits(table: Table, key: string, l: Limits, l': Limits, now: real)
    requires key in table && Limiting(l) && Limiting(l')
    requires table[key].time != 0.0
    ensures Load(table, key, l, now) == Load(table, key, l', now) == table[key]
  {
    RebuildKeepsState(table[key], now);
  }

  /** An override whose rate or burst is undefined or zero makes its key
      unlimited, whatever the table holds: the overrides `{rate: 0}`,
      `{rate: 0, burst: 0}` and a window-only override all do this. */
  lemma UnlimitedOverride(t: Throttle, table: Table, key: string, now: real, get: Io, put: Io)
    requires key in t.overrides && DefinesAny(t.overrides[key])
    requires !Truthy(t.overrides[key].rate) || !Truthy(t.overrides[key].burst)
    ensures RateLimit(t, table, Some(key), now, get, put) == Step(Unthrottled, table)
  {
  }

  /** A synchronous table never yields a lookup error or a save error. */
  lemma SyncTableNeverFails(t: Throttle, table: Table, key: Option<string>, now: real, get: Io, put: Io)
    requires t.table == Sync && NumericCase(t, table, key)
    ensures RateLimit(t, table, key, now, get, put).reply != LookupFailed
    ensures RateLimit(t, table, key, now, get, put).reply.Decided? ==>
      !RateLimit(t, table, key, now, get, put).reply.saveFailed
  {
  }
}

=== FILE: token_bucket.dfy ===
/** The token-bucket state machine of token_bucket.js.

    A bucket holds up to `capacity` tokens and regains `fillRate` tokens per
    `window` milliseconds of elapsed time. Refill is lazy: it is computed from
    the time since the bucket was last touched, only when tokens are consumed.
    The clock is not read here: every operation takes the current time `now`
    as a parameter, so each step is a pure state transition. Numbers are
    ideal reals. */
module TokenBucket {
  import opened Wrappers

  /** The state of one bucket; `time` is the instant of the last refill. */
  datatype Bucket = Bucket(capacity: real, tokens: real, fillRate: real, window: real, time: real)

  /** The option record the constructor accepts: a fresh configuration or the
      snapshot of an earlier bucket. `tokens` is `None` when the field is
      absent (it coerces to NaN); `time` is `None` when absent. */
  datatype Options = Options(capacity: real, tokens: Option<real>, fillRate: real, window: real, time: Option<real>)

  /** The result of `consume`: whether the request was admitted, and the
      bucket as it is afterwards. */
  datatype Consumed = Consumed(admitted: bool, bucket: Bucket)

  function Min(a: real, b: real): (m: real)
    ensures m <= a && m <= b
    ensures m == a || m == b
  {
    if a <= b then a else b
  }

  /** The bucket invariant together with the configuration the refill
      arithmetic needs to behave sensibly. */
  predicate Valid(b: Bucket)
  {
    0.0 <= b.tokens <= b.capacity && 0.0 <= b.fillRate && 0.0 < b.window
  }

  /** The bucket is full. */
  predicate Full(b: Bucket)
  {
    b.tokens == b.capacity
  }

  /** The constructor: a missing token count starts the bucket full, and a
      missing or zero time stamp is replaced by the current time. */
  function New(o: Options, now: real): (b: Bucket)
    ensures b.capacity == o.capacity && b.fillRate == o.fillRate && b.window == o.window
    ensures o.tokens.None? ==> Full(b)
    ensures o.tokens.Some? ==> b.tokens == o.tokens.value
    ensures o.time.Some? && o.time.value != 0.0 ==> b.time == o.time.value
    ensures o.time.None? || o.time.value == 0.0 ==> b.time == now
  {
    var tokens := if o.tokens.None? then o.capacity else o.tokens.value;
    var time := if o.time.Some? && o.time.value != 0.0 then o.time.value else now;
    Bucket(o.capacity, tokens, o.fillRate, o.window, time)
  }

  /** The plain record a bucket is stored as (its own fields, or their JSON
      form). */
  function Snapshot(b: Bucket): (o: Options)
  {
    Options(b.capacity, Some(b.tokens), b.fillRate, b.window, Some(b.time))
  }

  /** Rebuilding a bucket from its snapshot gives the same bucket back,
      unless its time stamp is zero, which the constructor treats as missing. */
  lemma RebuildKeepsState(b: Bucket, now: real)
    ensures New(Snapshot(b), now).tokens == b.tokens
    ensures b.time != 0.0 ==> New(Snapshot(b), now) == b
    ensures b.time == 0.0 ==> New(Snapshot(b), now) == b.(time := now)
  {
  }

  /** The elapsed time refill is computed over. When the clock has moved
      backwards, a full window is taken to have passed. */
  function Elapsed(b: Bucket, now: real): (e: real)
  {
    if now < b.time then b.window else now - b.time
  }

  /** `_fill`: lazily refill from elapsed time, clamp at capacity, and stamp
      the bucket with the current time. */
  function Fill(b: Bucket, now: real): (r: Bucket)
    requires b.window != 0.0
    ensures r.capacity == b.capacity && r.fillRate == b.fillRate && r.window == b.window
    ensures r.time == now
    ensures b.tokens >= b.capacity ==> r.tokens == b.tokens
    ensures b.tokens < b.capacity ==> r.tokens <= b.capacity
    ensures now < b.time && b.tokens < b.capacity ==> r.tokens == Min(b.capacity, b.tokens + b.fillRate)
    ensures now == b.time ==> r.tokens == b.tokens
  {
    var tokens :=
      if b.tokens < b.capacity then Min(b.capacity, b.tokens + (b.fillRate / b.window) * Elapsed(b, now))
      else b.tokens;
    b.(tokens := tokens, time := now)
  }

  /** `consume`: refill, then take `n` tokens if that many are available;
      otherwise take none. Either way the refilled state is kept. */
  function Consume(b: Bucket, n: real, now: real): (c: Consumed)
    requires b.window != 0.0
    ensures c.admitted <==> n <= Fill(b, now).tokens
    ensures c.admitted ==> c.bucket == Fill(b, now).(tokens := Fill(b, now).tokens - n)
    ensures !c.admitted ==> c.bucket == Fill(b, now)
  {
    var f := Fill(b, now);
    if n <= f.tokens then Consumed(true, f.(tokens := f.tokens - n)) else Consumed(false, f)
  }

  lemma DeltaNonNegative(rate: real, window: real, elapsed: real)
    requires 0.0 <= rate && 0.0 < window && 0.0 <= elapsed
    ensures 0.0 <= (rate / window) * elapsed
  {
    assert 0.0 <= rate / window;
  }

  /** Refill never lowers the token count and never leaves it above capacity;
      a bucket at capacity is left with the same token count. */
  lemma FillBounded(b: Bucket, now: real)
    requires Valid(b)
    ensures Valid(Fill(b, now))
    ensures b.tokens <= Fill(b, now).tokens <= b.capacity
    ensures Full(b) ==> Fill(b, now) == b.(time := now)
  {
    if b.tokens < b.capacity {
      assert 0.0 <= Elapsed(b, now);
      DeltaNonNegative(b.fillRate, b.window, Elapsed(b, now));
    }
  }

  /** Refilling twice at the same instant is the same as refilling once. */
  lemma FillIdempotent(b: Bucket, now: real)
    requires b.window != 0.0
    ensures Fill(Fill(b, now), now) == Fill(b, now)
  {
  }

  /** Waiting at least `window / rate` adds at least one token's worth. */
  lemma SlopeTimesPeriod(rate: real, window: real, e: real)
    requires 0.0 < rate && 0.0 < window && window / rate <= e
    ensures 1.0 <= (rate / window) * e
  {
    var slope := rate / window;
    var period := window / rate;
    assert slope * period == 1.0;
    assert 0.0 < slope;
    assert 0.0 <= slope * (e - period);
    assert slope * e == slope * period + slope * (e - period);
  }

  /** After at least `window / fillRate` milliseconds, at least one more token
      is available (up to capacity). */
  lemma FillAfterOneTokenPeriod(b: Bucket, now: real)
    requires Valid(b) && 0.0 < b.fillRate
    requires b.time <= now && b.window / b.fillRate <= now - b.time
    ensures Fill(b, now).tokens >= Min(b.capacity, b.tokens + 1.0)
  {
    if b.tokens < b.capacity {
      var delta := (b.fillRate / b.window) * Elapsed(b, now);
      assert Elapsed(b, now) == now - b.time;
      SlopeTimesPeriod(b.fillRate, b.window, now - b.time);
      assert Fill(b, now).tokens == Min(b.capacity, b.tokens + delta);
    }
  }

  /** Refill over two consecutive intervals adds the refill of each. */
  lemma SlopeSplits(slope: real, t0: real, t1: real, t2: real)
    ensures slope * (t2 - t0) == slope * (t1 - t0) + slope * (t2 - t1)
  {
  }

  /** Clamping after each of two refills equals clamping once after both. */
  lemma ClampComposes(capacity: real, tokens: real, d1: real, d2: real)
    requires tokens < capacity && 0.0 <= d2
    ensures var m := Min(capacity, tokens + d1);
      (if m < capacity then Min(capacity, m + d2) else m) == Min(capacity, tokens + d1 + d2)
  {
  }

  /** Moving forward in time from a bucket below capacity, refill adds the
      slope `fillRate / window` times the elapsed time, clamped at capacity. */
  lemma ForwardRefill(b: Bucket, now: real)
    requires b.window != 0.0 && b.tokens < b.capacity && b.time <= now
    ensures Fill(b, now).tokens == Min(b.capacity, b.tokens + (b.fillRate / b.window) * (now - b.time))
  {
    assert Elapsed(b, now) == now - b.time;
  }

  /** A second refill, from `t1` on to `t2`, uses the same slope. */
  lemma SecondRefill(b: Bucket, t1: real, t2: real)
    requires b.window != 0.0 && b.time <= t1 <= t2 && Fill(b, t1).tokens < b.capacity
    ensures Fill(Fill(b, t1), t2).tokens == Min(b.capacity, Fill(b, t1).tokens + (b.fillRate / b.window) * (t2 - t1))
  {
    var f1 := Fill(b, t1);
    assert f1.fillRate == b.fillRate && f1.window == b.window && f1.time == t1 && f1.capacity == b.capacity;
    ForwardRefill(f1, t2);
  }

  lemma NonNegativeProduct(x: real, y: real)
    requires 0.0 <= x && 0.0 <= y
    ensures 0.0 <= x * y
  {
  }

  /** Clamped linear refill over `[t0, t1]` and then `[t1, t2]` equals
      clamped linear refill over `[t0, t2]`. */
  lemma LinearRefillComposes(capacity: real, tokens: real, slope: real, t0: real, t1: real, t2: real)
    requires tokens < capacity && 0.0 <= slope && t1 <= t2
    ensures var m := Min(capacity, tokens + slope * (t1 - t0));
      (if m < capacity then Min(capacity, m + slope * (t2 - t1)) else m) == Min(capacity, tokens + slope * (t2 - t0))
  {
    SlopeSplits(slope, t0, t1, t2);
    NonNegativeProduct(slope, t2 - t1);
    ClampComposes(capacity, tokens, slope * (t1 - t0), slope * (t2 - t1));
  }

  /** Refill is lazy without loss: refilling at `t1` and again at a later
      `t2` leaves the bucket exactly as one refill at `t2` would. */
  lemma FillComposes(b: Bucket, t1: real, t2: real)
    requires Valid(b) && b.time <= t1 <= t2
    ensures Fill(Fill(b, t1), t2) == Fill(b, t2)
  {
    if b.tokens < b.capacity {
      ForwardRefill(b, t1);
      ForwardRefill(b, t2);
      if Fill(b, t1).tokens < b.capacity {
        SecondRefill(b, t1, t2);
      }
      assert 0.0 <= b.fillRate / b.window;
      LinearRefillComposes(b.capacity, b.tokens, b.fillRate / b.window, b.time, t1, t2);
    }
  }

  /** One window after the last refill, exactly `fillRate` tokens have been
      added, clamped at capacity. */
  lemma FillOneWindow(b: Bucket)
    requires b.window != 0.0 && b.tokens < b.capacity
    ensures Fill(b, b.time + b.window).tokens == Min(b.capacity, b.tokens + b.fillRate)
  {
    assert Elapsed(b, b.time + b.window) == b.window;
    assert (b.fillRate / b.window) * b.window == b.fillRate;
  }

  /** The invariant `0 <= tokens <= capacity` (with a sane configuration) is
      kept by consuming any non-negative number of tokens. */
  lemma ConsumePreservesValid(b: Bucket, n: real, now: real)
    requires Valid(b) && 0.0 <= n
    ensures Valid(Consume(b, n, now).bucket)
    ensures Consume(b, n, now).bucket.time == now
  {
    FillBounded(b, now);
  }

  /** Taking one token from a full bucket at the instant it was last touched
      leaves `capacity - 1` tokens. */
  lemma ConsumeOneFromFull(b: Bucket)
    requires b.window != 0.0 && Full(b) && 1.0 <= b.capacity
    ensures Consume(b, 1.0, b.time) == Consumed(true, b.(tokens := b.capacity - 1.0))
  {
  }

  /** A bucket rebuilt from its snapshot answers `consume` exactly as the
      original does (its time stamp being non-zero). */
  lemma RebuiltConsumesAlike(b: Bucket, n: real, built: real, now: real)
    requires b.window != 0.0 && b.time != 0.0
    ensures Consume(New(Snapshot(b), built), n, now) == Consume(b, n, now)
  {
    RebuildKeepsState(b, built);
  }

  /** The admissions of consuming one token at each of the instants `nows`,
      in order. */
  function ConsumeEach(b: Bucket, nows: seq<real>): (admitted: seq<bool>)
    requires b.window != 0.0
    ensures |admitted| == |nows|
    decreases |nows|
  {
    if nows == [] then []
    else
      var c := Consume(b, 1.0, nows[0]);
      [c.admitted] + ConsumeEach(c.bucket, nows[1..])
  }

  /** With no refill, a bucket holding `k` whole tokens admits exactly the
      first `k` of any run of single-token requests, whatever their times. */
  lemma {:induction false} NoRefillAdmitsExactlyTokens(b: Bucket, k: nat, nows: seq<real>)
    requires b.window != 0.0 && b.fillRate == 0.0 && b.tokens == k as real
    ensures forall i :: 0 <= i < |nows| ==> (ConsumeEach(b, nows)[i] <==> i < k)
    decreases |nows|
  {
    if nows != [] {
      var c := Consume(b, 1.0, nows[0]);
      assert Fill(b, nows[0]).tokens == b.tokens;
      if k == 0 {
        assert !c.admitted;
        NoRefillAdmitsExactlyTokens(c.bucket, 0, nows[1..]);
      } else {
        assert c.admitted && c.bucket.tokens == (k - 1) as real;
        NoRefillAdmitsExactlyTokens(c.bucket, k - 1, nows[1..]);
      }
      var r := ConsumeEach(b, nows);
      assert r == [c.admitted] + ConsumeEach(c.bucket, nows[1..]);
      forall i | 0 <= i < |nows|
        ensures r[i] <==> i < k
      {
        if i > 0 {
          assert r[i] == ConsumeEach(c.bucket, nows[1..])[i - 1];
        }
      }
    }
  }

  /** A new bucket of whole capacity `C` with no refill admits the first `C`
      single-token requests and refuses the next. */
  lemma NoRefillCapacityRun(capacity: nat, window: real, now: real, nows: seq<real>)
    requires window != 0.0 && |nows| == capacity + 1
    ensures ConsumeEach(New(Options(capacity as real, None, 0.0, window, None), now), nows)
         == seq(capacity, _ => true) + [false]
  {
    var b := New(Options(capacity as real, None, 0.0, window, None), now);
    NoRefillAdmitsExactlyTokens(b, capacity, nows);
  }
}

=== FILE: wrappers.dfy ===
/** Small failure-carrying datatypes shared by the model. */
module Wrappers {

  /** A value that may be missing. In this model `None` stands for a
      JavaScript `undefined` field (or a field that coerces to NaN). */
  datatype Option<+T> = None | Some(value: T) {

    /** The wrapped value, or `default` when there is none. */
    function GetOr(default: T): T
    {
      match this
      case Some(v) => v
      case None => default
    }
  }

  /** The outcome of an operation that may fail with an error of type `E`. */
  datatype Result<+R, +E> = Success(value: R) | Failure(error: E)
}
